=== FILE: README.md ===
# User registration and session model

A Dafny model of the small core of a Next.js + NestJS starter kit:

- **User entity** (`UserEntity`, `user_entity.dfy`). Covers the two-value `UserRole` enum, the `User` record and the users table. The table is a sequence of rows carrying the schema's two uniqueness constraints: unique `email` and a unique generated `id`. `Index` gives the map-from-email view of the table.
- **Registration service** (`UsersService`, `users_service.dfy`). `create` first runs the email-uniqueness pre-check. On a conflict it throws `ConflictException`. Otherwise it hashes the password and saves one new row. The service also offers `findByEmail`. `Create` returns three things: the table after the call, the returned user or the thrown error, and the collaborator calls made (`FindOne`, `HashPassword`, `Save`). That last part makes "no hash and no save on conflict" stateable.
- **Server DTO validation** (`CreateUserDtoValidation`, `create_user_dto.dfy`). Runs the class-validator decorators of `CreateUserDto` over a raw JSON body. A field may be missing, `null`, a string or another JSON value. The result is either every violation or the typed DTO.
- **Client register schema** (`RegisterSchema`, `register_schema.dfy`). Covers the zod `registerSchema`, the form's default values and the JSON body the client posts. It proves the relation to the server's constraints.
- **Auth session client** (`AuthContext`, `auth_context.dfy`). Covers `AuthProvider`: a state machine over the stored token (the `localStorage` cell) and the `isAuthenticated` / `isLoading` flags, driven by `checkAuth`, `login`, `registerUser` and `logout`.

`results.dfy` holds `Option`/`Result` and the JSON value and field types that are shared. `js_string.dfy` (`JsString`) holds the two string-length measures the validators use.

Collaborators become parameters:
- bcrypt is a function `hash: string -> string`, one per call. This is because bcrypt draws a fresh salt every time.
- class-validator's `@IsEmail` is the predicate `isEmail`.
- zod's `.email()` is the predicate `isZodEmail`.
- An HTTP reply is the value a transition awaits.

The store is deterministic:
- The uuid primary key is modelled as a natural number, one more than the largest id, or 0 for an empty table (`FreshId`). So it is fresh by construction.

String lengths follow each library:
- zod's `.min` uses JavaScript's `String.length`, which counts UTF-16 code units (`JsString.Utf16Length`). A character above U+FFFF counts as two.
- class-validator's `@MinLength` uses validator.js `isLength` (`JsString.ValidatorLength`). It counts code points, not counting the variation selectors U+FE0E and U+FE0F.

## Model

| member | source | states |
|---|---|---|
| UserEntity.ParseRole | backend/src/users/entities/user.entity.ts:3-6 | a role string is accepted exactly when it is `admin` or `officer`, and maps back to that string |
| UserEntity.RoleValueRoundTrip | backend/src/users/entities/user.entity.ts:3-6 | the two roles have distinct string values, and parsing a role's value gives the role back |
| UserEntity.FreshId | backend/src/users/entities/user.entity.ts:10-11 | the generated id is larger than, hence distinct from, every id already in the table |
| UserEntity.NewRecord | backend/src/users/entities/user.entity.ts:19-24 | a new row copies its fields; a missing role becomes `officer` |
| UserEntity.IndexContents | backend/src/users/entities/user.entity.ts:13-14 | an email is a key of the table's map view exactly when some row has it, and the entry is a row with that email |
| UserEntity.IndexOfWellFormed | backend/src/users/entities/user.entity.ts:13-14 | under the unique-email constraint the map view has one entry per row, each row under its own email |
| UserEntity.IndexAppend | backend/src/users/users.service.ts:31-36 | saving a row with a new email adds exactly that entry to the map view |
| UsersService.ConflictMessage | backend/src/users/users.service.ts:50 | the conflict message contains the offending email verbatim |
| UsersService.FindByEmail | backend/src/users/users.service.ts:59-63 | the lookup returns a stored row with exactly that email if one exists, otherwise nothing; it takes the table and returns no new one |
| UsersService.ValidateEmailUniqueness | backend/src/users/users.service.ts:44-51 | a conflict is raised exactly when some row already has the email, and its message names the email |
| UsersService.Create | backend/src/users/users.service.ts:26-37 | conflict iff the email is taken, with the table unchanged and no hash or save; otherwise exactly one row is appended, with email, name and role copied, password `hash(dto.password)` and a fresh id; both uniqueness constraints are preserved |
| UsersService.FindByEmailIsIndexLookup | backend/src/users/users.service.ts:59-63 | the lookup agrees with the table's map view on every email |
| UsersService.FindByEmailFindsTheRow | backend/src/users/users.service.ts:44-47 | on a well-formed table the lookup by a row's email returns that very row |
| UsersService.CreateUpdatesIndex | backend/src/users/users.service.ts:26-36 | as a map from email to user, success is the old map plus one entry under the DTO's email, and a conflict changes nothing |
| UsersService.CreateThenFind | backend/src/users/users.service.ts:31-36 | after success the new user is found under its email, and every other email finds what it found before |
| UsersService.CreateTwiceConflicts | backend/src/users/users.service.ts:27 | registering the same email again right after a success conflicts and leaves exactly one more row than at the start |
| UsersService.EmailsAreCaseSensitive | backend/src/users/users.service.ts:44-47 | `A@x.com` in the table does not block registering `a@x.com` |
| UsersService.CreateAllPreservesWellFormed | backend/src/users/users.service.ts:26-37 | any run of registrations, each hashed with its own salted hasher, keeps both uniqueness constraints, only appends rows, and keeps one map entry per row |
| CreateUserDtoValidation.ViolationsByField | backend/src/users/dto/create-user.dto.ts:4-19 | a field gets a violation exactly when it breaks its rule: email must pass the email check, password must be a string of validator.js length at least 6, name a non-empty string, role `admin` or `officer` |
| CreateUserDtoValidation.ValidateDto | backend/src/users/dto/create-user.dto.ts:4-19 | a body is accepted iff all four field rules hold, and then the DTO carries the body's values; otherwise the error lists exactly the invalid fields and is non-empty |
| RegisterSchema.ParseRegister | frontend/app/register/page.tsx:12-17 | the client accepts iff name has at least 2 UTF-16 code units, email passes the email check, password has at least 6 UTF-16 code units and role is `admin` or `officer`; it parses to the same values, or reports exactly the failing fields |
| RegisterSchema.DefaultFormRole | frontend/app/register/page.tsx:33-35 | the untouched form submits `''` for name, email and password and `officer` for role; role is the entity default and passes the schema, name and password fail, and email fails exactly when the email check refuses `''` |
| RegisterSchema.ClientAcceptedPassesServerFields | frontend/app/register/page.tsx:12-17 | whatever the client accepts meets the server's name and role rules once posted, and its password rule whenever the password has no astral character or variation selector |
| RegisterSchema.ClientAcceptedPassesServer | frontend/app/register/page.tsx:12-17 | if zod's email check implies class-validator's, the server accepts what the client posts exactly when the password's validator.js length is at least 6, and otherwise reports only the password's `@MinLength`; on a plain password the DTO carries the same fields |
| RegisterSchema.AstralPasswordPassesClientOnly | frontend/app/register/page.tsx:15 | a password of three emoji passes the client's `.min(6)`, and the server refuses the posted body with a single `@MinLength` violation |
| RegisterSchema.ParseRegisterStrict | frontend/app/register/page.tsx:12-17 | the corrected schema accepts iff every field meets the written rule and the password's validator.js length is at least 6, and then it yields the written schema's values; otherwise it reports exactly the fields that fail these rules |
| RegisterSchema.StrictSchemaReportsEveryField | frontend/app/register/page.tsx:13-15 | for a one-character name with a three-emoji password the corrected schema reports both name and password, the written one only name |
| RegisterSchema.StrictClientPassesServer | frontend/app/register/page.tsx:12-17 | with the corrected schema, anything the client accepts the server validates into a DTO with the same fields |
| JsString.Utf16Length | frontend/app/register/page.tsx:13-15 | the JavaScript length lies between the code-point count and twice it, and is zero only for the empty string |
| JsString.ValidatorLength | backend/src/users/dto/create-user.dto.ts:10 | validator.js's length never exceeds the code-point count |
| JsString.PlainLengthsAgree | backend/src/users/dto/create-user.dto.ts:10 | on text without astral characters or variation selectors, both lengths equal the code-point count |
| RegisterSchema.ServerAcceptsWhatClientRefuses | frontend/app/register/page.tsx:13 | the server accepts a one-character name that the client refuses, so on names the client is stricter; only the corrected schema (`StrictClientPassesServer`) makes the client strictly stricter overall |
| AuthContext.Mount | frontend/context/auth-context.tsx:19-20 | the provider starts unauthenticated and loading |
| AuthContext.CheckAuth | frontend/context/auth-context.tsx:23-28 | after the check, authentication holds exactly when the stored token is truthy, and loading is over |
| AuthContext.Login | frontend/context/auth-context.tsx:33-40 | a reply with a truthy token stores it and authenticates; a failed call or a missing or empty token changes nothing |
| AuthContext.RegisterUser | frontend/context/auth-context.tsx:42-45 | registering changes neither the stored token nor the authentication flag |
| AuthContext.Logout | frontend/context/auth-context.tsx:47-51 | logout removes the token and signs out from any state |
| AuthContext.StepPreserves | frontend/context/auth-context.tsx:23-51 | every transition keeps the flag consistent with storage once loaded, never stores an empty token, and never returns to loading |
| AuthContext.RunPreserves | frontend/context/auth-context.tsx:23-51 | the same three invariants hold after any sequence of transitions |
| AuthContext.AuthenticatedIffTokenStored | frontend/context/auth-context.tsx:23-38 | from mount, after `checkAuth` and any later events, the session is authenticated exactly when a token is stored, provided storage does not start with `''` |
| AuthContext.LogoutSignsOut | frontend/context/auth-context.tsx:47-50 | whatever happened before, a final logout leaves no token and no authentication |
| AuthContext.RegisterEventsKeepSession | frontend/context/auth-context.tsx:42-45 | any number of registrations leave the token and the flag as they were |

## Left out

- bcrypt internals: the salt, the randomness and the cost factor `BCRYPT_SALT_ROUNDS = 10` are not modelled. The hasher is the `hash` parameter. A hashing failure is not modelled.
- The `created_at` and `updated_at` timestamps are not modelled. The returned user still carries the digest in `password`, with no redaction, as the code does.
- The uuid generator is replaced by `FreshId`, which gives a number one more than the largest id. The real generator is random, and freshness there is probabilistic.
- The check-then-act race between the uniqueness pre-check and `save` is left out, because it is a concurrency concern. Calls are modelled one after another. The unique-email invariant stands for the database's unique constraint.
- Email syntax (`@IsEmail`, `z.string().email()`) is not modelled. Both are foreign library predicates and stay abstract parameters.
- Strings are sequences of Unicode scalar values. A JavaScript string holding a lone surrogate has no counterpart in the model.
- UsersService.Create: the model assumes a `ValidationPipe` is bound and that the request body holds only the four declared keys. The app's bootstrap is not part of this model, and `@Body()` is used bare. So neither whether a pipe is bound nor how it is configured (`whitelist`, `forbidNonWhitelisted`) is in the source. Without a bound pipe no decorator runs, and every statement about what "the server" accepts (`ValidateDto` and the lemmas built on it) does not apply. Without `whitelist`, an extra key such as `id` would be spread into `repository.create`. A `save` with an existing `id` updates that row rather than appending one. So "exactly one row appended with a fresh id" is promised only for bodies without such keys.
- The message texts of validation errors and of zod issues are not modelled. So is the ordering of class-validator's output. Violations carry the field and the rule only.
- `users.controller.ts` is not modelled. It forwards the body to `create` unchanged.
- HTTP (the `api` client), `router.push` navigation, React rendering, hooks and effects scheduling, the login page and the landing page are not modelled. `localStorage` is the single `storedToken` cell.
- AuthContext.AuthenticatedIffTokenStored: the property assumes this provider is the only writer of `access_token` during the session. Storage is shared by every tab of the origin, and `checkAuth` reads it only at mount, with no `storage` listener. A logout in another tab, or a write by the `api` client (not part of this model), can leave `isAuthenticated` true with no token stored. The model does not cover such writes.
- AuthContext.RegisterUser: the `/users` request itself and the navigation to `/login` are left out. Only the session state is modelled.
- `frontend/types/auth.ts` has no behaviour. Its shapes appear as `RegisterValues` and `LoginReply`.

## Findings

| source | as written | input that shows it | evidently intended | confidence | as-written member | corrected member |
|---|---|---|---|---|---|---|
| frontend/app/register/page.tsx:15 | zod's `.min(6)` counts UTF-16 code units, and the server's `@MinLength(6)` (backend/src/users/dto/create-user.dto.ts:10) counts code points via validator.js | password `😀😀😀`: JavaScript length 6, validator.js length 3; the client accepts the form, and a bound `ValidationPipe` answers with a `MinLength` violation | the client is at least as strict as the server on the password, so a form the client accepts is never refused by the server's DTO checks | medium; not executed | RegisterSchema.AstralPasswordPassesClientOnly | RegisterSchema.StrictClientPassesServer |

## Notes on the code as written

- `checkAuth` tests `!!token`, so an empty string in storage counts as signed out. `login` never stores an empty token. So "authenticated iff a token is stored" holds whenever the earlier session did not leave `''` behind and nothing but this provider writes the token during the session (`AuthContext.AuthenticatedIffTokenStored`).
- The server accepts names of length 1. The register form demands at least 2. A direct `POST /users` can therefore create users the form could not.
- `ClientAcceptedPassesServer` and `StrictClientPassesServer` assume that every address zod's email check accepts is one class-validator's `@IsEmail` accepts. That is not known to hold for the real libraries: validator.js by default refuses a local part over 64 characters, and zod's check has no such cap. Their conclusions describe the deployed behaviour only as far as that hypothesis does.
- The service does not normalise emails, and the model compares them exactly. The database's `WHERE email = ?` collation is not in the source.

=== FILE: auth_context.dfy ===
/** `AuthProvider`: the client's session state machine. The browser's
    `localStorage['access_token']` is the `storedToken` cell, the two React
    state hooks are the flags, and each HTTP reply is a parameter of the
    transition that awaits it. */
module AuthContext {
  import opened Results

  datatype AuthState = AuthState(storedToken: Option<string>, isAuthenticated: bool, isLoading: bool)

  /** JavaScript truthiness of a `getItem` result: `null` and `''` are falsy. */
  predicate Truthy(t: Option<string>) {
    t.Some? && t.value != ""
  }

  /** The provider as first rendered: `useState(false)`, `useState(true)`,
      and whatever token an earlier session left in storage. */
  function Mount(stored: Option<string>): (s: AuthState)
    ensures !s.isAuthenticated && s.isLoading
    ensures s.storedToken == stored
  {
    AuthState(stored, false, true)
  }

  /** The mount effect `checkAuth`: authenticated exactly when the stored
      token is truthy; loading is over. The token is not verified. */
  function CheckAuth(s: AuthState): (r: AuthState)
    ensures r.storedToken == s.storedToken
    ensures r.isAuthenticated <==> Truthy(s.storedToken)
    ensures !r.isLoading
  {
    s.(isAuthenticated := Truthy(s.storedToken), isLoading := false)
  }

  /** How `POST /auth/login` answered: it threw, or it returned a body whose
      `access_token` may be missing. */
  datatype LoginReply = LoginFailed | LoginReplied(accessToken: Option<string>)

  /** `login`: a reply carrying a truthy token stores it and authenticates;
      any other outcome leaves the state alone. */
  function Login(s: AuthState, reply: LoginReply): (r: AuthState)
    ensures reply.LoginReplied? && Truthy(reply.accessToken) ==>
              && r.storedToken == reply.accessToken
              && r.isAuthenticated
              && r.isLoading == s.isLoading
    ensures !(reply.LoginReplied? && Truthy(reply.accessToken)) ==> r == s
  {
    match reply
    case LoginReplied(Some(token)) =>
      if token != "" then s.(storedToken := Some(token), isAuthenticated := true) else s
    case _ => s
  }

  /** `registerUser`: posts the form and navigates; whether the post
      succeeded or threw, the session is untouched. */
  function RegisterUser(s: AuthState, succeeded: bool): (r: AuthState)
    ensures r.storedToken == s.storedToken
    ensures r.isAuthenticated == s.isAuthenticated
  {
    s
  }

  /** `logout`: removes the token and signs out, from any state. */
  function Logout(s: AuthState): (r: AuthState)
    ensures r.storedToken.None? && !r.isAuthenticated
    ensures r.isLoading == s.isLoading
  {
    s.(storedToken := None, isAuthenticated := false)
  }

  /** Everything that can happen to the provider. */
  datatype Event = CheckAuthEvent | LoginEvent(reply: LoginReply) | RegisterEvent(succeeded: bool) | LogoutEvent

  function Step(s: AuthState, e: Event): AuthState {
    match e
    case CheckAuthEvent => CheckAuth(s)
    case LoginEvent(reply) => Login(s, reply)
    case RegisterEvent(ok) => RegisterUser(s, ok)
    case LogoutEvent => Logout(s)
  }

  /** The state after a sequence of events, in order. */
  function Run(s: AuthState, events: seq<Event>): AuthState
    decreases |events|
  {
    if |events| == 0 then s else Run(Step(s, events[0]), events[1..])
  }

  /** Once loading is over, the flag agrees with the stored token. */
  ghost predicate Consistent(s: AuthState) {
    !s.isLoading ==> (s.isAuthenticated <==> Truthy(s.storedToken))
  }

  /** The stored token, if any, is not the empty string. */
  ghost predicate NoEmptyToken(s: AuthState) {
    s.storedToken != Some("")
  }

  lemma StepPreserves(s: AuthState, e: Event)
    ensures Consistent(s) ==> Consistent(Step(s, e))
    ensures NoEmptyToken(s) ==> NoEmptyToken(Step(s, e))
    ensures !s.isLoading ==> !Step(s, e).isLoading
    ensures e.CheckAuthEvent? ==> !Step(s, e).isLoading
  {
  }

  /** Every run keeps the flag consistent with storage, never stores an
      empty token, and never returns to loading once loaded. */
  lemma {:induction false} RunPreserves(s: AuthState, events: seq<Event>)
    ensures Consistent(s) ==> Consistent(Run(s, events))
    ensures NoEmptyToken(s) ==> NoEmptyToken(Run(s, events))
    ensures !s.isLoading ==> !Run(s, events).isLoading
    decreases |events|
  {
    if |events| > 0 {
      StepPreserves(s, events[0]);
      RunPreserves(Step(s, events[0]), events[1..]);
    }
  }

  /** From mount, after `checkAuth` and any later events, the session is
      authenticated exactly when a token is stored, provided the earlier
      session did not leave an empty string behind. */
  lemma AuthenticatedIffTokenStored(stored: Option<string>, later: seq<Event>)
    requires stored != Some("")
    ensures var s := Run(Mount(stored), [CheckAuthEvent] + later);
            && !s.isLoading
            && (s.isAuthenticated <==> s.storedToken.Some?)
  {
    var start := Mount(stored);
    var events := [CheckAuthEvent] + later;
    assert events[0] == CheckAuthEvent && events[1..] == later;
    StepPreserves(start, CheckAuthEvent);
    RunPreserves(Step(start, CheckAuthEvent), later);
  }

  /** Logging out is final for the session until the next login: whatever
      came before, the state ends unauthenticated with no token. */
  lemma {:induction false} LogoutSignsOut(s: AuthState, before: seq<Event>)
    ensures var r := Run(s, before + [LogoutEvent]);
            r.storedToken.None? && !r.isAuthenticated
    decreases |before|
  {
    if |before| == 0 {
      assert before + [LogoutEvent] == [LogoutEvent];
    } else {
      assert (before + [LogoutEvent])[1..] == before[1..] + [LogoutEvent];
      LogoutSignsOut(Step(s, before[0]), before[1..]);
    }
  }

  /** Registering never signs anyone in or out. */
  lemma {:induction false} RegisterEventsKeepSession(s: AuthState, events: seq<Event>)
    requires forall i :: 0 <= i < |events| ==> events[i].RegisterEvent?
    ensures Run(s, events).storedToken == s.storedToken
    ensures Run(s, events).isAuthenticated == s.isAuthenticated
    decreases |events|
  {
    if |events| > 0 {
      RegisterEventsKeepSession(Step(s, events[0]), events[1..]);
    }
  }
}

=== FILE: create_user_dto.dfy ===
/** `CreateUserDto` as the server's validation pipe sees it: the decorator
    constraints on each field of the raw request body, the list of violations
    they produce, and the typed DTO handed to `UsersService.create` when there
    is none. Email syntax (`@IsEmail`) is the abstract predicate `isEmail`. */
module CreateUserDtoValidation {
  import opened Results
  import opened Payload
  import opened UserEntity
  import UsersService
  import opened JsString

  /** The raw JSON body of `POST /users`. */
  datatype CreateUserBody = CreateUserBody(email: JsonValue, password: JsonValue, name: JsonValue, role: JsonValue)

  /** The class-validator decorators in use. */
  datatype Rule = IsEmailRule | IsStringRule | IsNotEmptyRule | MinLengthRule | IsEnumRule

  /** One failed decorator on one property. */
  datatype Violation = Violation(field: Field, rule: Rule)

  /** `@MinLength(6)` on `password`. */
  const PasswordMinLength: nat := 6

  /** `@IsNotEmpty()`: anything but `''`, `null` and `undefined`. */
  predicate IsNotEmpty(v: JsonValue) {
    v != Absent && v != Null && v != Str("")
  }

  /** `@MinLength(n)`: a string whose validator.js length is at least `n`. */
  predicate MinLength(v: JsonValue, n: nat) {
    v.Str? && ValidatorLength(v.s) >= n
  }

  /** `@IsEnum(UserRole)`: one of the enum's string values. */
  predicate IsEnumRole(v: JsonValue) {
    v.Str? && ParseRole(v.s).Some?
  }

  /** `@IsEmail()`: a string the email-syntax predicate accepts. */
  predicate IsEmailValue(v: JsonValue, isEmail: string -> bool) {
    v.Str? && isEmail(v.s)
  }

  /** `[Violation(f, r)]` when the check failed, otherwise nothing. */
  function Check(ok: bool, f: Field, r: Rule): seq<Violation> {
    if ok then [] else [Violation(f, r)]
  }

  /** Every decorator of the DTO run against the body, property by property. */
  function Violations(body: CreateUserBody, isEmail: string -> bool): seq<Violation> {
    Check(IsEmailValue(body.email, isEmail), Email, IsEmailRule)
    + Check(IsString(body.password), Password, IsStringRule)
    + Check(IsNotEmpty(body.password), Password, IsNotEmptyRule)
    + Check(MinLength(body.password, PasswordMinLength), Password, MinLengthRule)
    + Check(IsString(body.name), Name, IsStringRule)
    + Check(IsNotEmpty(body.name), Name, IsNotEmptyRule)
    + Check(IsEnumRole(body.role), Role, IsEnumRule)
  }

  /** What each field must be, stated per field rather than per decorator. */
  predicate FieldValid(body: CreateUserBody, isEmail: string -> bool, f: Field) {
    match f
    case Email => body.email.Str? && isEmail(body.email.s)
    case Password => body.password.Str? && ValidatorLength(body.password.s) >= 6
    case Name => body.name.Str? && |body.name.s| > 0
    case Role => body.role == Str("admin") || body.role == Str("officer")
  }

  /** True iff some violation is reported against field `f`. */
  predicate Reported(errs: seq<Violation>, f: Field) {
    exists i :: 0 <= i < |errs| && errs[i].field == f
  }

  /** A field is reported exactly when it is invalid, so the body passes
      exactly when all four fields are valid. */
  lemma ViolationsByField(body: CreateUserBody, isEmail: string -> bool, f: Field)
    ensures Reported(Violations(body, isEmail), f) <==> !FieldValid(body, isEmail, f)
  {
    var errs := Violations(body, isEmail);
    if !FieldValid(body, isEmail, f) {
      var rule := match f
        case Email => IsEmailRule
        case Password => if IsString(body.password) then MinLengthRule else IsStringRule
        case Name => if IsString(body.name) then IsNotEmptyRule else IsStringRule
        case Role => IsEnumRule;
      assert Violation(f, rule) in errs;
    }
  }

  /** The validation pipe: the typed DTO when no decorator fails, otherwise
      every violation. */
  function ValidateDto(body: CreateUserBody, isEmail: string -> bool): (r: Result<UsersService.CreateUserDto, seq<Violation>>)
    ensures r.Success? <==> forall f: Field :: FieldValid(body, isEmail, f)
    ensures r.Success? ==>
              && Str(r.value.email) == body.email
              && Str(r.value.password) == body.password
              && Str(r.value.name) == body.name
              && Str(RoleValue(r.value.role)) == body.role
    ensures r.Failure? ==> r.error == Violations(body, isEmail) && |r.error| > 0
    ensures r.Failure? ==> forall f: Field :: Reported(r.error, f) <==> !FieldValid(body, isEmail, f)
  {
    var errs := Violations(body, isEmail);
    ViolationsByField(body, isEmail, Email);
    ViolationsByField(body, isEmail, Password);
    ViolationsByField(body, isEmail, Name);
    ViolationsByField(body, isEmail, Role);
    assert forall f: Field :: Reported(errs, f) <==> !FieldValid(body, isEmail, f) by {
      forall f: Field ensures Reported(errs, f) <==> !FieldValid(body, isEmail, f) {
        ViolationsByField(body, isEmail, f);
      }
    }
    if |errs| == 0 then
      Success(UsersService.CreateUserDto(body.email.s, body.password.s, body.name.s, ParseRole(body.role.s).value))
    else
      assert Reported(errs, errs[0].field);
      Failure(errs)
  }
}

=== FILE: js_string.dfy ===
/** The two ways the validators measure a string. A Dafny `string` is a
    sequence of Unicode scalar values, so `|s|` counts code points; zod's
    `.min` uses JavaScript's `String.length`, which counts UTF-16 code units,
    and class-validator's `@MinLength` uses validator.js `isLength`, which
    counts code points less the variation selectors U+FE0E and U+FE0F. */
module JsString {

  /** A character outside the Basic Multilingual Plane: two UTF-16 code units. */
  predicate IsAstral(c: char) {
    c as int >= 0x1_0000
  }

  /** U+FE0E or U+FE0F, which `isLength` does not count. */
  predicate IsVariationSelector(c: char) {
    c == '\U{FE0E}' || c == '\U{FE0F}'
  }

  /** `s.length` in JavaScript: one code unit per character, two for an
      astral one. */
  function Utf16Length(s: string): (n: nat)
    ensures |s| <= n <= 2 * |s|
    ensures n == 0 <==> s == ""
  {
    if |s| == 0 then 0
    else (if IsAstral(s[0]) then 2 else 1) + Utf16Length(s[1..])
  }

  /** The length validator.js `isLength` compares against its bounds. */
  function ValidatorLength(s: string): (n: nat)
    ensures n <= |s|
  {
    if |s| == 0 then 0
    else (if IsVariationSelector(s[0]) then 0 else 1) + ValidatorLength(s[1..])
  }

  /** No character on which the two measures can disagree. */
  ghost predicate Plain(s: string) {
    forall i :: 0 <= i < |s| ==> !IsAstral(s[i]) && !IsVariationSelector(s[i])
  }

  /** On plain text both libraries see the same length, the code-point count. */
  lemma {:induction false} PlainLengthsAgree(s: string)
    requires Plain(s)
    ensures Utf16Length(s) == |s|
    ensures ValidatorLength(s) == |s|
  {
    if |s| > 0 {
      assert Plain(s[1..]) by {
        forall i | 0 <= i < |s[1..]|
          ensures !IsAstral(s[1..][i]) && !IsVariationSelector(s[1..][i])
        {
          assert s[1..][i] == s[i + 1];
        }
      }
      PlainLengthsAgree(s[1..]);
    }
  }
}

=== FILE: register_schema.dfy ===
/** The register page's zod schema and form defaults: which submitted forms
    the client accepts, and how what it accepts relates to the server's DTO
    constraints. Email syntax (`z.string().email()`) is the abstract
    predicate `isZodEmail`. */
module RegisterSchema {
  import opened Results
  import opened Payload
  import opened UserEntity
  import UsersService
  import opened CreateUserDtoValidation
  import opened JsString

  /** The form's values at submission, one JSON value per field. */
  datatype RegisterForm = RegisterForm(name: JsonValue, email: JsonValue, password: JsonValue, role: JsonValue)

  /** `RegisterFormValues`, the schema's parsed output. */
  datatype RegisterValues = RegisterValues(name: string, email: string, password: string, role: UserRole)

  /** `z.string().min(2)` on `name`. */
  const NameMinLength: nat := 2

  /** `z.string().min(6)` on `password`. */
  const ClientPasswordMinLength: nat := 6

  /** The form submitted untouched: `defaultValues: { role: 'officer' }`
      fills in the role, and each other registered input reads as `''`. */
  const DefaultValues: RegisterForm := RegisterForm(Str(""), Str(""), Str(""), Str("officer"))

  /** `z.string().min(n)`: a string of at least `n` UTF-16 code units. */
  predicate StringMin(v: JsonValue, n: nat) {
    v.Str? && Utf16Length(v.s) >= n
  }

  /** `z.enum(['admin', 'officer'])`. */
  predicate RoleEnum(v: JsonValue) {
    v.Str? && ParseRole(v.s).Some?
  }

  /** The fields whose check failed, in schema order (zod reports one issue
      per failing field for these schemas). */
  function FieldIssues(nameOk: bool, emailOk: bool, passwordOk: bool, roleOk: bool): seq<Field> {
    (if nameOk then [] else [Name])
    + (if emailOk then [] else [Email])
    + (if passwordOk then [] else [Password])
    + (if roleOk then [] else [Role])
  }

  /** The issues `registerSchema` reports. */
  function Issues(form: RegisterForm, isZodEmail: string -> bool): seq<Field> {
    FieldIssues(
      StringMin(form.name, NameMinLength),
      form.email.Str? && isZodEmail(form.email.s),
      StringMin(form.password, ClientPasswordMinLength),
      RoleEnum(form.role))
  }

  /** What the client demands of each field, stated per field. */
  predicate ClientFieldValid(form: RegisterForm, isZodEmail: string -> bool, f: Field) {
    match f
    case Name => form.name.Str? && Utf16Length(form.name.s) >= 2
    case Email => form.email.Str? && isZodEmail(form.email.s)
    case Password => form.password.Str? && Utf16Length(form.password.s) >= 6
    case Role => form.role == Str("admin") || form.role == Str("officer")
  }

  /** `registerSchema.safeParse`: the parsed values when every field passes,
      otherwise exactly the failing fields. */
  function ParseRegister(form: RegisterForm, isZodEmail: string -> bool): (r: Result<RegisterValues, seq<Field>>)
    ensures r.Success? <==> forall f: Field :: ClientFieldValid(form, isZodEmail, f)
    ensures r.Success? ==>
              && form.name == Str(r.value.name)
              && form.email == Str(r.value.email)
              && form.password == Str(r.value.password)
              && form.role == Str(RoleValue(r.value.role))
    ensures r.Failure? ==> forall f: Field :: f in r.error <==> !ClientFieldValid(form, isZodEmail, f)
  {
    var issues := Issues(form, isZodEmail);
    if |issues| == 0 then
      Success(RegisterValues(form.name.s, form.email.s, form.password.s, ParseRole(form.role.s).value))
    else
      assert !ClientFieldValid(form, isZodEmail, issues[0]);
      Failure(issues)
  }

  /** The JSON body `authRegister(data)` posts to `/users`. */
  function ToBody(v: RegisterValues): CreateUserBody {
    CreateUserBody(Str(v.email), Str(v.password), Str(v.name), Str(RoleValue(v.role)))
  }

  /** The untouched form fails on name and password, on email exactly when
      the email check refuses `''`, and never on the role; its role is the
      entity's default role. */
  lemma DefaultFormRole(isZodEmail: string -> bool)
    ensures ParseRegister(DefaultValues, isZodEmail).Failure?
    ensures ParseRegister(DefaultValues, isZodEmail).error
            == if isZodEmail("") then [Name, Password] else [Name, Email, Password]
    ensures ParseRole(DefaultValues.role.s) == Some(DefaultRole)
  {
  }

  /** Whatever the client accepts passes the server's name and role
      constraints once posted; the password passes too whenever it holds no
      character on which zod's and validator.js's lengths disagree. */
  lemma ClientAcceptedPassesServerFields(form: RegisterForm, isZodEmail: string -> bool, isEmail: string -> bool)
    requires ParseRegister(form, isZodEmail).Success?
    ensures var body := ToBody(ParseRegister(form, isZodEmail).value);
            && FieldValid(body, isEmail, Name)
            && FieldValid(body, isEmail, Role)
    ensures var v := ParseRegister(form, isZodEmail).value;
            Plain(v.password) ==> FieldValid(ToBody(v), isEmail, Password)
  {
    var v := ParseRegister(form, isZodEmail).value;
    if Plain(v.password) {
      PlainLengthsAgree(v.password);
    }
  }

  /** When every address zod accepts is one class-validator accepts too, the
      server accepts what the client posts exactly when the password's
      validator.js length reaches 6; otherwise the one violation is the
      password's `@MinLength`. On a plain password the server's DTO carries
      the client's fields. */
  lemma ClientAcceptedPassesServer(form: RegisterForm, isZodEmail: string -> bool, isEmail: string -> bool)
    requires forall s :: isZodEmail(s) ==> isEmail(s)
    requires ParseRegister(form, isZodEmail).Success?
    ensures var v := ParseRegister(form, isZodEmail).value;
            ValidateDto(ToBody(v), isEmail).Success? <==> ValidatorLength(v.password) >= 6
    ensures var v := ParseRegister(form, isZodEmail).value;
            ValidatorLength(v.password) < 6 ==>
              ValidateDto(ToBody(v), isEmail) == Failure([Violation(Password, MinLengthRule)])
    ensures var v := ParseRegister(form, isZodEmail).value;
            Plain(v.password) ==>
              ValidateDto(ToBody(v), isEmail) == Success(UsersService.CreateUserDto(v.email, v.password, v.name, v.role))
  {
    var v := ParseRegister(form, isZodEmail).value;
    assert ClientFieldValid(form, isZodEmail, Password);
    assert v.password != "";
    RoleValueRoundTrip(v.role);
    if ValidatorLength(v.password) < 6 {
      assert Violations(ToBody(v), isEmail) == [Violation(Password, MinLengthRule)];
    }
    if Plain(v.password) {
      PlainLengthsAgree(v.password);
    }
  }

  /** Three emoji make a password of JavaScript length 6 but validator.js
      length 3: the client accepts the form and the server refuses what it
      posts, with a single `@MinLength` violation. */
  lemma AstralPasswordPassesClientOnly()
    ensures var form := RegisterForm(Str("Ann"), Str("a@x.com"), Str("\U{1F600}\U{1F600}\U{1F600}"), Str("officer"));
            && ParseRegister(form, s => true).Success?
            && ValidateDto(ToBody(ParseRegister(form, s => true).value), s => true)
               == Failure([Violation(Password, MinLengthRule)])
  {
    var pw := "\U{1F600}\U{1F600}\U{1F600}";
    assert Utf16Length(pw) == 6 by {
      assert pw[1..] == "\U{1F600}\U{1F600}" && pw[2..] == "\U{1F600}";
      assert "\U{1F600}"[1..] == "";
    }
    assert ValidatorLength(pw) == 3 by {
      assert pw[1..] == "\U{1F600}\U{1F600}" && pw[2..] == "\U{1F600}";
      assert "\U{1F600}"[1..] == "";
    }
    var body := CreateUserBody(Str("a@x.com"), Str(pw), Str("Ann"), Str("officer"));
    assert Violations(body, s => true) == [Violation(Password, MinLengthRule)];
  }

  /** What the corrected schema demands of each field: the written rules,
      and on the password also validator.js's length. */
  predicate StrictClientFieldValid(form: RegisterForm, isZodEmail: string -> bool, f: Field) {
    && ClientFieldValid(form, isZodEmail, f)
    && (f == Password ==> form.password.Str? && ValidatorLength(form.password.s) >= ClientPasswordMinLength)
  }

  /** The schema with its password rule measured the way the server measures
      it too (zod's `.min(6)` plus validator.js's count), so the client is at
      least as strict as the server on every field; like the written schema
      it reports every failing field. */
  function ParseRegisterStrict(form: RegisterForm, isZodEmail: string -> bool): (r: Result<RegisterValues, seq<Field>>)
    ensures r.Success? <==> forall f: Field :: StrictClientFieldValid(form, isZodEmail, f)
    ensures r.Success? ==> r == ParseRegister(form, isZodEmail)
    ensures r.Failure? ==> forall f: Field :: f in r.error <==> !StrictClientFieldValid(form, isZodEmail, f)
  {
    var issues := FieldIssues(
      StringMin(form.name, NameMinLength),
      form.email.Str? && isZodEmail(form.email.s),
      StringMin(form.password, ClientPasswordMinLength)
        && ValidatorLength(form.password.s) >= ClientPasswordMinLength,
      RoleEnum(form.role));
    if |issues| == 0 then
      ParseRegister(form, isZodEmail)
    else
      assert !StrictClientFieldValid(form, isZodEmail, issues[0]);
      Failure(issues)
  }

  /** The corrected schema reports both faults of a form with a one-character
      name and a three-emoji password; the written one reports only the name. */
  lemma StrictSchemaReportsEveryField()
    ensures var form := RegisterForm(Str("A"), Str("a@x.com"), Str("\U{1F600}\U{1F600}\U{1F600}"), Str("officer"));
            && ParseRegisterStrict(form, s => true) == Failure([Name, Password])
            && ParseRegister(form, s => true) == Failure([Name])
  {
    var pw := "\U{1F600}\U{1F600}\U{1F600}";
    assert Utf16Length(pw) == 6 && ValidatorLength(pw) == 3 by {
      assert pw[1..] == "\U{1F600}\U{1F600}" && pw[2..] == "\U{1F600}";
      assert "\U{1F600}"[1..] == "";
    }
    assert Utf16Length("A") == 1 by {
      assert "A"[1..] == "";
    }
    var form := RegisterForm(Str("A"), Str("a@x.com"), Str(pw), Str("officer"));
    assert Issues(form, s => true) == [Name];
    assert FieldIssues(false, true, false, true) == [Name, Password];
  }

  /** With the corrected schema, everything the client accepts the server
      validates into the DTO with the same fields. */
  lemma StrictClientPassesServer(form: RegisterForm, isZodEmail: string -> bool, isEmail: string -> bool)
    requires forall s :: isZodEmail(s) ==> isEmail(s)
    requires ParseRegisterStrict(form, isZodEmail).Success?
    ensures var v := ParseRegisterStrict(form, isZodEmail).value;
            ValidateDto(ToBody(v), isEmail) == Success(UsersService.CreateUserDto(v.email, v.password, v.name, v.role))
  {
  }

  /** The converse fails: the server accepts a one-character name that the
      client refuses. */
  lemma ServerAcceptsWhatClientRefuses()
    ensures var form := RegisterForm(Str("A"), Str("a@x.com"), Str("secret1"), Str("officer"));
            var body := CreateUserBody(Str("a@x.com"), Str("secret1"), Str("A"), Str("officer"));
            && ParseRegister(form, s => true).Failure?
            && ParseRegister(form, s => true).error == [Name]
            && ValidateDto(body, s => true).Success?
  {
  }
}

=== FILE: results.dfy ===
/** Failure-carrying datatypes shared by the backend and frontend models:
    `Option` stands for a TypeScript value that may be `null`/`undefined`,
    `Result` for a call that either returns a value or throws. */
module Results {

  datatype Option<+T> = None | Some(value: T) {

    /** The value, or `default` when there is none (TypeScript's `??`). */
    function GetOr(default: T): T {
      match this
      case Some(v) => v
      case None => default
    }
  }

  datatype Result<+R, +E> = Success(value: R) | Failure(error: E)
}

/** A JSON value as it reaches a validator: a field may be missing
    (`undefined`), `null`, a string, or some other JSON value (a number, a
    boolean, an array or an object). Only the distinctions the validators
    make are kept. */
module Payload {

  datatype JsonValue = Absent | Null | Str(s: string) | OtherValue

  /** The four fields of a registration payload, on both sides of the wire. */
  datatype Field = Email | Password | Name | Role

  /** `typeof value === 'string'` */
  predicate IsString(v: JsonValue) {
    v.Str?
  }
}

=== FILE: user_entity.dfy ===
/** The `User` entity and its table: the closed role enumeration, the record
    with its generated id, and the unique-email / unique-id constraints the
    database schema declares. */
module UserEntity {
  import opened Results

  /** The two roles of `UserRole`; a role is always exactly one of them. */
  datatype UserRole = Admin | Officer

  /** The column default for `role`. */
  const DefaultRole: UserRole := Officer

  /** The enum's string value, as stored and as sent over the wire. */
  function RoleValue(r: UserRole): string {
    match r
    case Admin => "admin"
    case Officer => "officer"
  }

  /** Reads a role back from its string value; the comparison is exact. */
  function ParseRole(s: string): (r: Option<UserRole>)
    ensures r.Some? <==> s == "admin" || s == "officer"
    ensures r.Some? ==> RoleValue(r.value) == s
  {
    if s == "admin" then Some(Admin)
    else if s == "officer" then Some(Officer)
    else None
  }

  lemma RoleValueRoundTrip(r: UserRole)
    ensures ParseRole(RoleValue(r)) == Some(r)
    ensures forall q: UserRole :: RoleValue(q) == RoleValue(r) ==> q == r
  {
  }

  /** A persisted user. `password` holds the digest, never the plaintext.
      The generated uuid is modelled as a natural number; the timestamps are
      not modelled. */
  datatype User = User(id: nat, email: string, password: string, role: UserRole, name: string)

  /** The users table, rows in insertion order. */
  type Table = seq<User>

  /** `@Column({ unique: true }) email`: no two rows share an email. */
  ghost predicate UniqueEmails(t: Table) {
    forall i, j :: 0 <= i < j < |t| ==> t[i].email != t[j].email
  }

  /** `@PrimaryGeneratedColumn('uuid') id`: no two rows share an id. */
  ghost predicate UniqueIds(t: Table) {
    forall i, j :: 0 <= i < j < |t| ==> t[i].id != t[j].id
  }

  /** The table satisfies the schema's two uniqueness constraints. */
  ghost predicate WellFormed(t: Table) {
    UniqueEmails(t) && UniqueIds(t)
  }

  /** True iff some row has this exact email. */
  ghost predicate HasEmail(t: Table, email: string) {
    exists i :: 0 <= i < |t| && t[i].email == email
  }

  /** The id the database hands to the next inserted row: one more than every
      id already present, so it collides with none of them. */
  function FreshId(t: Table): (r: nat)
    ensures forall i :: 0 <= i < |t| ==> t[i].id < r
  {
    if |t| == 0 then 0
    else
      var rest := FreshId(t[1..]);
      assert forall i :: 1 <= i < |t| ==> t[i] == t[1..][i - 1];
      if t[0].id + 1 > rest then t[0].id + 1 else rest
  }

  /** Builds the row `save` persists and returns: a missing role takes the
      column default, which the database applies on insert. */
  function NewRecord(id: nat, email: string, password: string, name: string, role: Option<UserRole>): (u: User)
    ensures u.id == id && u.email == email && u.password == password && u.name == name
    ensures role.Some? ==> u.role == role.value
    ensures role.None? ==> u.role == Officer
  {
    User(id, email, password, role.GetOr(DefaultRole), name)
  }

  /** The table viewed as a map from email to row; the first row with a given
      email wins (on a well-formed table there is only one). */
  function Index(t: Table): map<string, User>
  {
    if |t| == 0 then map[] else Index(t[1..])[t[0].email := t[0]]
  }

  lemma {:induction false} IndexContents(t: Table, email: string)
    ensures email in Index(t) <==> HasEmail(t, email)
    ensures email in Index(t) ==> Index(t)[email].email == email && Index(t)[email] in t
  {
    if |t| > 0 {
      IndexContents(t[1..], email);
      if HasEmail(t[1..], email) {
        var i :| 0 <= i < |t[1..]| && t[1..][i].email == email;
        assert t[i + 1].email == email;
      }
      if HasEmail(t, email) && t[0].email != email {
        var i :| 0 <= i < |t| && t[i].email == email;
        assert t[1..][i - 1].email == email;
      }
    }
  }

  /** On a well-formed table every row is reachable through the index under
      its own email, so the map has exactly one entry per row. */
  lemma {:induction false} IndexOfWellFormed(t: Table)
    requires UniqueEmails(t)
    ensures |Index(t)| == |t|
    ensures forall i :: 0 <= i < |t| ==> t[i].email in Index(t) && Index(t)[t[i].email] == t[i]
  {
    if |t| > 0 {
      var rest := t[1..];
      assert UniqueEmails(rest) by {
        forall i, j | 0 <= i < j < |rest| ensures rest[i].email != rest[j].email {
          assert rest[i] == t[i + 1] && rest[j] == t[j + 1];
        }
      }
      IndexOfWellFormed(rest);
      assert !HasEmail(rest, t[0].email) by {
        forall k | 0 <= k < |rest| ensures rest[k].email != t[0].email {
          assert rest[k] == t[k + 1];
        }
      }
      IndexContents(rest, t[0].email);
      assert t[0].email !in Index(rest);
      forall i | 0 <= i < |t| ensures t[i].email in Index(t) && Index(t)[t[i].email] == t[i] {
        if i > 0 {
          assert t[i] == rest[i - 1];
          assert t[i].email != t[0].email;
        }
      }
    }
  }

  /** Appending a row whose email is new adds exactly one index entry and
      leaves every other entry alone. */
  lemma {:induction false} IndexAppend(t: Table, u: User)
    requires !HasEmail(t, u.email)
    ensures Index(t + [u]) == Index(t)[u.email := u]
  {
    if |t| == 0 {
      assert t + [u] == [u];
      assert [u][1..] == [];
    } else {
      assert (t + [u])[1..] == t[1..] + [u];
      assert !HasEmail(t[1..], u.email) by {
        forall k | 0 <= k < |t[1..]| ensures t[1..][k].email != u.email {
          assert t[1..][k] == t[k + 1];
        }
      }
      IndexAppend(t[1..], u);
      assert t[0].email != u.email;
    }
  }
}

=== FILE: users_service.dfy ===
/** `UsersService`: registration (uniqueness check, hashing, save) and lookup
    by email over the users table. The repository is the table itself; the
    password hasher is the `hash` parameter, one function per call because
    bcrypt draws a fresh salt each time. */
module UsersService {
  import opened Results
  import opened UserEntity

  /** The fields `create` receives; validation has already passed. */
  datatype CreateUserDto = CreateUserDto(email: string, password: string, name: string, role: UserRole)

  /** `ConflictException`, carrying its message. */
  datatype ServiceError = Conflict(message: string)

  /** One call the service makes on a collaborator, in the order it makes them. */
  datatype Call = FindOne(email: string) | HashPassword(plaintext: string) | Save(user: User)

  /** What a call to `create` leaves behind: the table after the call, the
      returned user or the thrown error, and the collaborator calls made. */
  datatype Outcome = Outcome(store: Table, result: Result<User, ServiceError>, calls: seq<Call>)

  /** True iff `part` occurs in `whole` starting at position `k`. */
  ghost predicate OccursAt(whole: string, part: string, k: int) {
    0 <= k <= |whole| - |part| && whole[k..k + |part|] == part
  }

  /** True iff `part` occurs contiguously in `whole`. */
  ghost predicate Contains(whole: string, part: string) {
    exists k :: OccursAt(whole, part, k)
  }

  /** The conflict message; it names the offending email verbatim. */
  function ConflictMessage(email: string): (m: string)
    ensures Contains(m, email)
  {
    var prefix := "User with email '";
    var m := prefix + email + "' already exists";
    assert OccursAt(m, email, |prefix|);
    m
  }

  /** `findOne({ where: { email } })`: the first row whose email equals
      `email` exactly, or `None` (TypeScript's `null`). */
  function FindByEmail(t: Table, email: string): (r: Option<User>)
    ensures r.Some? <==> HasEmail(t, email)
    ensures r.Some? ==> r.value.email == email && r.value in t
  {
    if |t| == 0 then None
    else if t[0].email == email then Some(t[0])
    else
      var r := FindByEmail(t[1..], email);
      assert HasEmail(t[1..], email) ==> HasEmail(t, email) by {
        if HasEmail(t[1..], email) {
          var i :| 0 <= i < |t[1..]| && t[1..][i].email == email;
          assert t[i + 1] == t[1..][i];
        }
      }
      assert HasEmail(t, email) ==> HasEmail(t[1..], email) by {
        if HasEmail(t, email) {
          var i :| 0 <= i < |t| && t[i].email == email;
          assert t[1..][i - 1] == t[i];
        }
      }
      r
  }

  /** The private uniqueness pre-check: a conflict exactly when some row
      already has this email. */
  function ValidateEmailUniqueness(t: Table, email: string): (r: Option<ServiceError>)
    ensures r.Some? <==> HasEmail(t, email)
    ensures r.Some? ==> Contains(r.value.message, email)
  {
    if FindByEmail(t, email).Some? then Some(Conflict(ConflictMessage(email))) else None
  }

  /** `create`: refuse a taken email without hashing or saving; otherwise
      hash the password and append one new row built from the DTO. */
  function Create(t: Table, dto: CreateUserDto, hash: string -> string): (o: Outcome)
    ensures o.result.Failure? <==> HasEmail(t, dto.email)
    ensures o.result.Failure? ==>
              && o.store == t
              && o.calls == [FindOne(dto.email)]
              && Contains(o.result.error.message, dto.email)
    ensures o.result.Success? ==>
              var u := o.result.value;
              && o.store == t + [u]
              && u.email == dto.email && u.name == dto.name && u.role == dto.role
              && u.password == hash(dto.password)
              && (forall i :: 0 <= i < |t| ==> t[i].id != u.id)
              && o.calls == [FindOne(dto.email), HashPassword(dto.password), Save(u)]
    ensures WellFormed(t) ==> WellFormed(o.store)
  {
    match ValidateEmailUniqueness(t, dto.email)
    case Some(err) => Outcome(t, Failure(err), [FindOne(dto.email)])
    case None =>
      var digest := hash(dto.password);
      var u := NewRecord(FreshId(t), dto.email, digest, dto.name, Some(dto.role));
      Outcome(t + [u], Success(u), [FindOne(dto.email), HashPassword(dto.password), Save(u)])
  }

  /** The lookup agrees with the map view of the table. */
  lemma {:induction false} FindByEmailIsIndexLookup(t: Table, email: string)
    ensures FindByEmail(t, email) == (if email in Index(t) then Some(Index(t)[email]) else None)
  {
    if |t| > 0 && t[0].email != email {
      FindByEmailIsIndexLookup(t[1..], email);
    }
  }

  /** On a well-formed table the lookup returns THE row with that email. */
  lemma FindByEmailFindsTheRow(t: Table, i: int)
    requires UniqueEmails(t) && 0 <= i < |t|
    ensures FindByEmail(t, t[i].email) == Some(t[i])
  {
  }

  /** Seen through the map from email to user, a successful `create` adds
      exactly the new record under its email and a conflict changes nothing. */
  lemma CreateUpdatesIndex(t: Table, dto: CreateUserDto, hash: string -> string)
    ensures var o := Create(t, dto, hash);
            && (o.result.Success? ==> Index(o.store) == Index(t)[dto.email := o.result.value])
            && (o.result.Failure? ==> Index(o.store) == Index(t))
  {
    var o := Create(t, dto, hash);
    if o.result.Success? {
      IndexAppend(t, o.result.value);
    }
  }

  /** After a successful `create` the new user is found under its email and
      every other email finds what it found before. */
  lemma CreateThenFind(t: Table, dto: CreateUserDto, hash: string -> string, other: string)
    requires Create(t, dto, hash).result.Success?
    ensures FindByEmail(Create(t, dto, hash).store, dto.email) == Some(Create(t, dto, hash).result.value)
    ensures other != dto.email ==>
              FindByEmail(Create(t, dto, hash).store, other) == FindByEmail(t, other)
  {
    var o := Create(t, dto, hash);
    CreateUpdatesIndex(t, dto, hash);
    FindByEmailIsIndexLookup(o.store, dto.email);
    FindByEmailIsIndexLookup(o.store, other);
    FindByEmailIsIndexLookup(t, other);
  }

  /** Registering the same email twice in a row: the second call is a
      conflict and leaves the table exactly as the first call left it. */
  lemma CreateTwiceConflicts(t: Table, dto: CreateUserDto, again: CreateUserDto, h1: string -> string, h2: string -> string)
    requires Create(t, dto, h1).result.Success?
    requires again.email == dto.email
    ensures var o1 := Create(t, dto, h1);
            var o2 := Create(o1.store, again, h2);
            && o2.result.Failure?
            && o2.store == o1.store
            && |o2.store| == |t| + 1
  {
    var o1 := Create(t, dto, h1);
    assert o1.store[|t|].email == again.email;
  }

  /** The service does not normalise emails, and the model compares them
      exactly: a stored "A@x.com" does not block "a@x.com". */
  lemma EmailsAreCaseSensitive(hash: string -> string)
    ensures var stored := [User(0, "A@x.com", hash("secret1"), Officer, "A")];
            var o := Create(stored, CreateUserDto("a@x.com", "secret1", "B", Officer), hash);
            o.result.Success? && |o.store| == 2
  {
  }

  /** One registration request together with the hasher its call uses
      (bcrypt salts every call afresh). */
  datatype Registration = Registration(dto: CreateUserDto, hash: string -> string)

  /** Successive registrations, each against the table the previous one left. */
  function CreateAll(t: Table, requests: seq<Registration>): Table
    decreases |requests|
  {
    if |requests| == 0 then t
    else CreateAll(Create(t, requests[0].dto, requests[0].hash).store, requests[1..])
  }

  /** Any run of registrations keeps both uniqueness constraints, never
      removes a row, and leaves one index entry per row. */
  lemma {:induction false} CreateAllPreservesWellFormed(t: Table, requests: seq<Registration>)
    requires WellFormed(t)
    ensures WellFormed(CreateAll(t, requests))
    ensures t <= CreateAll(t, requests)
    ensures |Index(CreateAll(t, requests))| == |CreateAll(t, requests)|
    decreases |requests|
  {
    if |requests| == 0 {
      IndexOfWellFormed(t);
    } else {
      CreateAllPreservesWellFormed(Create(t, requests[0].dto, requests[0].hash).store, requests[1..]);
    }
  }
}
